=== FILE: README.md ===
# RockyGym app: decision logic in Dafny

The RockyGym mobile app is mostly screens that read and write tables of a hosted
backend. This project models the four pieces of the app that make decisions of
their own, and proves what they do:

- **Sign-up e-mail check** (`testEmail`, module `Helpers`, `helpers.dfy`): an
  address is accepted when it splits on `@` into exactly two parts, the first
  eleven characters long, the second starting with `rockygym` in any letter case.
  `Split` models JavaScript's `String.prototype.split` for a one-character
  separator, and `AcceptedShape` describes the accepted addresses position by
  position, independently of splitting.
- **Locker reservation** (`fetchLockers`, `handleLockerPress`, `renderLocker`,
  module `Booking`, `booking.dfy`): the `lockers` table is a `map<int, Row>` keyed
  on id, the screen's list is a `seq<Locker>`, and one press is a pure function
  `HandlePress` from the table, the list, the pressed locker and the answers of
  the user and the backend to the new table, list and alerts. The write is a
  blind update keyed on id, decided from the screen's copy of the locker.
- **Subscriptions** (`getFinishedAt`, `handleConfirm`, the dropdown,
  `renderSection`, the subscribe button, module `Subscription`,
  `subscription.dfy`): the duration-to-term mapping, the one-row-per-e-mail gate
  in front of the insert, and the list views built from the price list.
- **Opening hours** (`isGymOpen`, module `GymStatus`, `gym_status.dfy`): the hour
  predicate and the view chosen from it.

`common.dfy` holds `Option`, the backend `Response` (`Ok` or `Err(message)`) and
an order-preserving `Filter`.

Every backend table request is an input: the operation receives the response it
gets (`Ok` or `Err`) and, for reads, the table the backend holds. The signed-in
user's e-mail is an input as well. The clock is an input too: the hour of the
day for the status screen, today's day number for a subscription.

Behaviour worth knowing, proved below:

- The contact-staff alert for a pending locker is checked before the
  availability flag. Through the rendered list it can only be reached for a row
  whose flag says available while its status says pending, because a locker
  whose flag is off is rendered disabled (`ContactStaffNeedsInconsistentRow`).
- Two users pressing the same locker from the same list both get the success
  alert (`RaceBothSucceed`).
- When the duplicate-subscription query itself fails, its data is null and the
  gate lets the insert through, so an e-mail can end up with two rows
  (`FailedLookupAdmitsDuplicate`).
- When no price-list item has the selected title, `getFinishedAt` indexes an
  empty array and throws a TypeError inside `handleConfirm`. The handler's catch
  shows the generic error alert and nothing is inserted (`FinishedAt` returns
  `None`; `FailedSubmitChangesNothing`). The selection starts as the section type
  `"monthly"` while the dropdown's values are titles, so confirming without
  touching the dropdown fails unless an item is titled `"monthly"`
  (`InitialSelectionNeedsMonthlyTitle`).
- When the price-list request fails, the dropdown keeps its four placeholder
  values while the price list stays empty, so every choice fails the same way
  (`PlaceholderChoicesFail`).
- The subscribe button uses `.single()`, which yields no data unless the request
  succeeds and exactly one row matches. The button is hidden only when exactly
  one row exists for the e-mail and its status is set. The insert gate rejects
  on any row, so a visible button can still lead to a rejection (`VisibleButtonCanBeRejected`).

## Model

| member | source | states |
|---|---|---|
| Helpers.Split | utils/helpers.ts:2 | `split("@")` yields one part more than there are separators, no part contains the separator, and joining the parts gives back the input |
| Helpers.SplitJoin | utils/helpers.ts:2 | splitting a join of separator-free parts gives back the parts, so the split is exactly the inverse of the join |
| Helpers.TestEmail | utils/helpers.ts:1-7 | the e-mail check itself; it has no contract of its own, and `TestEmailCharacterised` and the lemmas below state its behaviour |
| Helpers.Lower | utils/helpers.ts:5 | `toLocaleLowerCase()` on ASCII: the length is kept, no capital A-Z remains, each capital becomes its lower-case letter and every other character is unchanged |
| Helpers.LowerIdempotent | utils/helpers.ts:5 | lower-casing an already lower-cased domain changes nothing |
| Helpers.StartsWith | utils/helpers.ts:5 | `startsWith("rockygym")`; it has no contract of its own, and `StartsWithPositions`, `DomainDecides` and `AcceptsAnyDomainSuffix` state its behaviour |
| Helpers.StartsWithPositions | utils/helpers.ts:5 | the prefix test holds exactly when the prefix fits and agrees position by position, and appending to a passing text keeps it passing |
| Helpers.TestEmailCharacterised | utils/helpers.ts:1-7 | `testEmail` accepts exactly the addresses with a single `@` at index 11 followed by eight characters that lower-case to `rockygym` (both directions) |
| Helpers.RejectsUnlessOneSeparator | utils/helpers.ts:2-4 | an address with no `@`, or with two or more, is rejected |
| Helpers.DomainDecides | utils/helpers.ts:4-6 | with an eleven-character local part and no second `@`, the verdict is exactly whether the lower-cased domain starts with `rockygym` |
| Helpers.RejectsWrongLocalLength | utils/helpers.ts:4 | a local part whose length is not 11 is rejected whatever the domain |
| Helpers.DomainCaseInsensitive | utils/helpers.ts:5 | two domains that lower-case to the same text give the same verdict |
| Helpers.AcceptsAnyDomainSuffix | utils/helpers.ts:5 | the domain test is a prefix test: `rockygym` followed by anything without `@` is accepted |
| Helpers.RejectsEmptyDomain | utils/helpers.ts:5 | an empty domain is rejected |
| Helpers.LettersPassAsPhoneNumber | utils/helpers.ts:4 | the content of the local part is not checked: `abcdefghijk@rockygym.com` passes, although the sign-up screen asks for a phone number |
| Helpers.UpperCaseDomainPasses | utils/helpers.ts:5 | `01234567890@ROCKYGYM.com` passes |
| Booking.AscendingIds | app/booking.tsx:38 | the table's ids come out each exactly once and strictly ascending |
| Booking.Rows | app/booking.tsx:35-38 | the listing holds one locker per row, each equal to its row, in strictly ascending id order, and every row appears |
| Booking.FetchLockers | app/booking.tsx:33-47 | the fetch itself; it has no contract of its own, and `FetchListsTableInIdOrder` states its behaviour |
| Booking.FetchListsTableInIdOrder | app/booking.tsx:33-47 | a successful fetch shows every row of the table once, ordered by id; a failed fetch keeps the previous list and shows the error message |
| Booking.PendingLockerAlertsStaff | app/booking.tsx:50-56 | a locker seen as pending gets only the contact-staff alert, with no write, even when its flag says available |
| Booking.UnavailableLockerIsSilent | app/booking.tsx:57 | a non-pending locker whose flag is off is a silent no-op |
| Booking.HandlePress | app/booking.tsx:49-84 | the press handler itself; it has no contract of its own, and the lemmas from `PendingLockerAlertsStaff` to `RaceBothSucceed` state its behaviour |
| Booking.MarkPending | app/booking.tsx:66-70 | the update keeps the set of ids and every other row, and sets the pressed row, when present, to its number with the flag off and status pending |
| Booking.CancelChangesNothing | app/booking.tsx:59-64 | cancelling the dialog leaves the table and the list unchanged |
| Booking.PressTable | app/booking.tsx:49-84 | the table after a press is the table marked at the locker's id when an eligible locker was confirmed and the write succeeded, and the same table otherwise |
| Booking.TableChangesIffConfirmedWrite | app/booking.tsx:49-84 | the table changes if and only if an eligible locker was confirmed, the write succeeded and the row was not already pending with its flag off |
| Booking.WriteTouchesOnlyThatRow | app/booking.tsx:66-70 | the update keeps the set of ids, every other row, and the pressed row's number |
| Booking.MarkPendingIdempotent | app/booking.tsx:67-70 | applying the update twice is the same as applying it once |
| Booking.OnlyTransitionIsToPending | app/booking.tsx:66-70 | a row either keeps its value or becomes pending with the flag off; the app never writes `booked` nor frees a locker |
| Booking.ReservationKeepsConsistency | app/booking.tsx:66-70 | if every row has `available` exactly when its status is `available`, that still holds after a press |
| Booking.FailedWriteChangesNothing | app/booking.tsx:72-73 | a failed write leaves table and list unchanged, shows the error and does not re-fetch |
| Booking.RefetchShowsReservation | app/booking.tsx:74-80 | after a successful write the list is re-fetched from the updated table, and the reserved locker appears pending, not pressable and labelled taken |
| Booking.FailedRefetchKeepsOldList | app/booking.tsx:72-80 | when the write succeeds but the re-fetch fails, the table is updated while the old list stays on screen behind the error alert |
| Booking.BlindWriteReportsSuccess | app/booking.tsx:49-78 | the write is decided from the screen's copy: a row already pending in the table is overwritten to the same values and the user is told it succeeded |
| Booking.RaceBothSucceed | app/booking.tsx:66-80 | two users confirming the same locker from the same list both get the success alert, and the table ends as after one write |
| Booking.PressableIffLabelledAvailable | app/booking.tsx:86-111 | a locker is pressable exactly when it is labelled "متاح", and otherwise it is labelled "محجوز" |
| Booking.Pressable | app/booking.tsx:86-91 | whether the button is enabled; it has no contract of its own, and `PressableIffLabelledAvailable` and `TapDiffersOnlyOnTakenPending` state its behaviour |
| Booking.Label | app/booking.tsx:102-111 | the status text; it has no contract of its own, and `PressableIffLabelledAvailable` states its behaviour |
| Booking.Tap | app/booking.tsx:86-91 | a tap on a rendered locker shows the contact-staff alert only for a locker flagged available yet pending, and changes the table only for an available locker confirmed with a successful write |
| Booking.TapDiffersOnlyOnTakenPending | app/booking.tsx:49-91 | the disabled button changes the outcome of a tap, compared with calling the handler directly, exactly for a pending locker whose flag is off |
| Booking.ConsistentTapNeverAlertsStaff | app/booking.tsx:49-91 | for a row whose flag agrees with its status, a tap never shows the contact-staff alert |
| Booking.ContactStaffNeedsInconsistentRow | app/booking.tsx:49-90 | a pressable locker that draws the contact-staff alert has its flag set while its status is pending |
| Common.Filter | app/subscription.tsx:165-166 | the kept elements all satisfy the test and come from the input, and every element of the input that satisfies the test is kept |
| Common.FilterAppend | app/subscription.tsx:165-166 | filtering a concatenation is the concatenation of the filtered parts, so relative order is kept |
| Subscription.FirstWithTitle | app/subscription.tsx:94-95 | returns nothing exactly when no item has the title, and otherwise the item at the first index with that title |
| Subscription.FinishedAt | app/subscription.tsx:93-112 | the term lookup itself; it has no contract of its own, and `FinishedAtUsesFirstMatch` and `FinishedAtFailsWithoutTitle` state its behaviour |
| Subscription.FinishedAtUsesFirstMatch | app/subscription.tsx:93-95 | the term is read from the duration of the first item whose title is the selection |
| Subscription.FinishedAtFailsWithoutTitle | app/subscription.tsx:94-95 | the term cannot be computed exactly when no item carries the selected title |
| Subscription.DurationOffset | app/subscription.tsx:97-111 | the duration chain itself; it has no contract of its own, and `DurationMatchesTable`, `EveryTermIsPositive` and `DurationsGrowInLength` state its behaviour |
| Subscription.DurationMatchesTable | app/subscription.tsx:97-111 | "day" is 1 day, "week" 1 week, "half month" 2 weeks, "month" 1 month, "2 months", "3 months", "6 months" that many months, and any other duration 1 year |
| Subscription.EveryTermIsPositive | app/subscription.tsx:97-111 | every term is at least one unit and at least one day long |
| Subscription.DurationsGrowInLength | app/subscription.tsx:97-111 | listed from "day" to the one-year default, each duration's lower bound in days (28 per month, 365 per year) is larger than the previous one's |
| Subscription.HandleConfirm | app/subscription.tsx:114-151 | the confirm handler itself; it has no contract of its own, and the lemmas from `DuplicateIsRejected` to `FailedLookupAdmitsDuplicate` state its behaviour |
| Subscription.RowsFor | app/subscription.tsx:118-121 | the rows the `user_email` query returns: each has the e-mail and comes from the table, and every table row with the e-mail is returned; the gate and the button lookup (:68-74) both use it |
| Subscription.DuplicateIsRejected | app/subscription.tsx:118-127 | when the lookup answers and any row exists for the e-mail, the user is told and nothing else changes |
| Subscription.InsertAppendsOneRow | app/subscription.tsx:128-146 | past the gate, exactly one row is appended with the e-mail, the selected type, today and the term; the selection resets to "monthly" and the modal closes |
| Subscription.InsertedTermEndsLater | app/subscription.tsx:128-135 | a confirmation either leaves the table alone or appends one row whose end date is strictly after its start date |
| Subscription.FailedSubmitChangesNothing | app/subscription.tsx:137-150 | a failed insert, or a selection with no matching title, leaves table, selection and modal unchanged and shows no success |
| Subscription.InitialSelectionNeedsMonthlyTitle | app/subscription.tsx:37 | with no item titled "monthly", confirming the initial selection inserts nothing |
| Subscription.GateKeepsOnePerEmail | app/subscription.tsx:118-135 | when the lookup answers, a table with at most one row per e-mail keeps that property |
| Subscription.FailedLookupAdmitsDuplicate | app/subscription.tsx:118-122 | when the lookup fails, an e-mail that has a row gets a second one |
| Subscription.NatToString | app/subscription.tsx:60 | a non-negative price is printed as a non-empty run of decimal digits with no leading zero |
| Subscription.IntToString | app/subscription.tsx:60 | `${item.price}` for an integer price: a minus sign exactly when the price is negative, followed by decimal digits with no leading zero after the sign; `IntToStringRoundTrip` reads it back |
| Subscription.IntToStringRoundTrip | app/subscription.tsx:60 | the printed price reads back as the price |
| Subscription.DropdownItems | app/subscription.tsx:57-64 | the dropdown builder itself; it has no contract of its own, and `DropdownFollowsPriceList` and `EveryChoiceHasEndDate` state its behaviour |
| Subscription.DropdownFollowsPriceList | app/subscription.tsx:57-64 | one dropdown entry per item, in order, whose value is the title and whose caption is the printed price, " EGP" with three tabs, and the title, the price reading back as the item's price |
| Subscription.EveryChoiceHasEndDate | app/subscription.tsx:57-65 | every value of the dropdown built from a loaded price list has a term |
| Subscription.PlaceholderChoicesFail | app/subscription.tsx:41-46 | after a failed price-list request the dropdown keeps its four placeholder values while the price list is empty; none of them has a term, and confirming one leaves the table unchanged and never reports success |
| Subscription.Section | app/subscription.tsx:161-167 | the section filter itself; it has no contract of its own, and `SectionShowsItsType` and `UnlistedTypeIsHidden` state its behaviour |
| Subscription.SectionShowsItsType | app/subscription.tsx:161-167 | a section shows exactly the items of its type, and keeps their order |
| Subscription.UnlistedTypeIsHidden | app/subscription.tsx:194-197 | an item whose type is not one of the four section types is shown in no section |
| Subscription.ButtonVisible | app/subscription.tsx:48-80 | the button rule itself; it has no contract of its own, and `HiddenButtonImpliesRejection`, `FailedRequestShowsButton` and `VisibleButtonCanBeRejected` state its behaviour |
| Subscription.HiddenButtonImpliesRejection | app/subscription.tsx:67-76 | the subscribe button is hidden only when both the price list and the status lookup answered, and then the insert gate rejects when its own lookup answers |
| Subscription.FailedRequestShowsButton | app/subscription.tsx:48-80 | a failed price-list request or a failed status lookup leaves the subscribe button visible |
| Subscription.VisibleButtonCanBeRejected | app/subscription.tsx:67-76 | the button stays visible for a single row with status unset, or for two rows, while the gate rejects both |
| GymStatus.OpenFromElevenToMidnight | app/status.tsx:13-17 | for a clock hour, the gym is open exactly from 11 through 23 and closed from 0 through 10 |
| GymStatus.NegativeHourDisjunctIsDead | app/status.tsx:16 | for a clock hour, the `hour < 0` disjunct changes nothing |
| GymStatus.IsGymOpen | app/status.tsx:13-17 | the hour predicate itself; it has no contract of its own, and `OpenFromElevenToMidnight` and `NegativeHourDisjunctIsDead` state its behaviour |
| GymStatus.ViewFollowsVerdict | app/status.tsx:27-41 | hours 11 to 23 show the open colours, icon and texts and hours 0 to 10 the closed ones; the two views differ in status text, time text and icon |
| GymStatus.StatusView | app/status.tsx:27-41 | the view choice itself; it has no contract of its own, and `ViewFollowsVerdict` states its behaviour |

## Left out

- Backend calls (auth, table select, insert and update, storage) are not modelled. Their outcome is an input (`Response`), and a read returns the modelled table.
- GymStatus.StatusView: the status screen renders nothing until its fonts have loaded (app/status.tsx:21-23). Font loading is not modelled, so the model always shows a view.
- The `loading` flag, styles, layout, animations, modal animation state and navigation are not modelled.
- Helpers.TestEmail: lower-casing is ASCII only. `toLocaleLowerCase` also lower-cases non-ASCII letters, some of them to ASCII (the Kelvin sign to `k`), and can depend on the locale. Lengths count characters, not UTF-16 code units.
- Helpers.Lower: lower-casing is ASCII only. `toLocaleLowerCase` also lower-cases non-ASCII letters, some of them to ASCII (the Kelvin sign to `k`), and can depend on the locale.
- `getUserProfileImage` (utils/helpers.ts:9-18) is a single backend read and is not modelled.
- Subscription.DurationsGrowInLength: orders a lower bound of 28 days per month, not the shortest real spans (59, 89 and 181 days for 2, 3 and 6 months), because calendar arithmetic is not modelled.
- Subscription.InsertedTermEndsLater: calendar arithmetic is not modelled. The end date is the start day plus a symbolic term (`Offset`), and `MinDays` is only a lower bound on the days a term spans, assuming month-end clamping.
- Subscription.HandleConfirm: the user's e-mail is taken to be present. The case where there is no signed-in user (`email` undefined) is not modelled.
- Subscription.ButtonVisible: the `getUser` call between the two requests is not modelled; its failure throws and leaves the button visible like a failed price list. The `status` column is a boolean here. Other truthy values are not modelled. The column the insert leaves to its default is taken to be false.
- Subscription.NatToString: prices are integers. Fractional prices and JavaScript's exponent notation are not modelled.
- Booking.FetchLockers: a successful response whose data is null (`data || []`) is not modelled separately.
- The loading spinner (app/subscription.tsx:153-159) is not modelled. While it shows, neither the dropdown nor the subscribe button can be reached.
- The rest of the app (products, supplements, exercises, cart, profile, login, image picker) performs backend reads and writes and renders the results. It is not part of this model.

=== FILE: booking.dfy ===
/** The locker screen of app/booking.tsx: the ordered locker list, the press
    decision, the reservation write and the availability-driven rendering.

    The backend's `lockers` table is a map from id to row; every request to it
    takes its `Response` as an input. The write is a blind, unconditional update
    keyed on id, decided from the locker as the screen last saw it. */
module Booking {
  import opened Common

  datatype Status = Available | Pending | Booked

  /** One row of the `lockers` table, without its key. */
  datatype Row = Row(number: string, available: bool, status: Status)

  /** A locker as the screen holds it: a row together with its id. */
  datatype Locker = Locker(id: int, number: string, available: bool, status: Status)

  /** The backend table, keyed on id. */
  type Table = map<int, Row>

  function LockerAt(db: Table, id: int): Locker
    requires id in db
  {
    Locker(id, db[id].number, db[id].available, db[id].status)
  }

  function RowOf(l: Locker): Row
  {
    Row(l.number, l.available, l.status)
  }

  /** The intended relation between the flag and the status: only an
      `Available` locker has `available` set. Nothing in the app enforces it. */
  predicate Consistent(r: Row)
  {
    r.available <==> r.status == Available
  }

  predicate AllConsistent(db: Table)
  {
    forall id :: id in db ==> Consistent(db[id])
  }

  // ---------------------------------------------------------------------------
  // Listing (`fetchLockers`)
  // ---------------------------------------------------------------------------

  lemma {:induction false} LeastExists(ks: set<int>)
    requires ks != {}
    ensures exists m :: m in ks && forall k :: k in ks ==> m <= k
    decreases |ks|
  {
    assert exists x :: x in ks by { NonEmptyHasElement(ks); }
    var x :| x in ks;
    var rest := ks - {x};
    if rest == {} {
      assert ks == {x};
      assert forall k :: k in ks ==> x <= k;
    } else {
      LeastExists(rest);
      var m :| m in rest && forall k :: k in rest ==> m <= k;
      var least := if x < m then x else m;
      forall k | k in ks
        ensures least <= k
      {
        if k != x {
          assert k in rest;
        }
      }
    }
  }

  lemma NonEmptyHasElement(ks: set<int>)
    requires ks != {}
    ensures exists x :: x in ks
  {
    // Spelled out so that callers can pick `var x :| x in ks` without the
    // verifier reporting the empty-set case as a contradictory assumption.
    if forall x :: x !in ks {
      assert false;
    }
  }

  /** The smallest id of a non-empty set of ids. */
  function Least(ks: set<int>): (m: int)
    requires ks != {}
    ensures m in ks && forall k :: k in ks ==> m <= k
  {
    LeastExists(ks);
    var m :| m in ks && forall k :: k in ks ==> m <= k;
    m
  }

  /** The ids of a set in ascending order (`order("id", { ascending: true })`). */
  function AscendingIds(ks: set<int>): (r: seq<int>)
    ensures |r| == |ks|
    ensures forall k :: k in ks <==> k in r
    ensures forall i, j :: 0 <= i < j < |r| ==> r[i] < r[j]
    decreases ks
  {
    if ks == {} then []
    else
      var m := Least(ks);
      [m] + AscendingIds(ks - {m})
  }

  /** Every row of the table, as lockers, in ascending id order. */
  function Rows(db: Table): (r: seq<Locker>)
    ensures |r| == |db|
    ensures forall i :: 0 <= i < |r| ==> r[i].id in db && r[i] == LockerAt(db, r[i].id)
    ensures forall i, j :: 0 <= i < j < |r| ==> r[i].id < r[j].id
    ensures forall id :: id in db ==> exists i :: 0 <= i < |r| && r[i].id == id
  {
    var ids := AscendingIds(db.Keys);
    var r := seq(|ids|, i requires 0 <= i < |ids| => LockerAt(db, ids[i]));
    RowsCover(db, ids, r);
    r
  }

  lemma RowsCover(db: Table, ids: seq<int>, r: seq<Locker>)
    requires forall k :: k in db <==> k in ids
    requires |r| == |ids|
    requires forall i :: 0 <= i < |ids| ==> ids[i] in db && r[i] == LockerAt(db, ids[i])
    ensures forall id :: id in db ==> exists i :: 0 <= i < |r| && r[i].id == id
  {
    forall id | id in db
      ensures exists i :: 0 <= i < |r| && r[i].id == id
    {
      var i :| 0 <= i < |ids| && ids[i] == id;
      assert r[i].id == id;
    }
  }

  /** The outcome of one `fetchLockers` call: the list shown afterwards and the
      alerts raised. On error the previous list stays. */
  datatype Listing = Listing(lockers: seq<Locker>, alerts: seq<Alert>)

  function FetchLockers(db: Table, response: Response, shown: seq<Locker>): Listing
  {
    match response
    case Ok => Listing(Rows(db), [])
    case Err(message) => Listing(shown, [Failed(message)])
  }

  // ---------------------------------------------------------------------------
  // Reservation (`handleLockerPress`)
  // ---------------------------------------------------------------------------

  datatype Alert =
    | ContactStaff                       // the locker is already partly reserved
    | ConfirmReservation(number: string) // the cancel / confirm dialog
    | Reserved(number: string)           // the write succeeded
    | Failed(message: string)            // a backend error, shown verbatim

  /** The screen after one interaction: the backend table, the list on screen and
      the alerts raised, in order. */
  datatype Screen = Screen(db: Table, lockers: seq<Locker>, alerts: seq<Alert>)

  /** The update `{ available: false, status: "pending" }` filtered on `id`: it
      matches no row when the id is absent and is not conditional on the row. */
  function MarkPending(db: Table, id: int): (r: Table)
    ensures r.Keys == db.Keys
    ensures forall k :: k in db && k != id ==> r[k] == db[k]
    ensures id in db ==> r[id] == Row(db[id].number, false, Pending)
  {
    if id in db then db[id := db[id].(available := false, status := Pending)] else db
  }

  /** A press on `locker` (the screen's copy), followed, when asked, by the user's
      answer to the dialog, the write's response and the re-fetch's response. */
  function HandlePress(db: Table, shown: seq<Locker>, locker: Locker,
                       confirmed: bool, write: Response, refetch: Response): Screen
  {
    if locker.status == Pending then Screen(db, shown, [ContactStaff])
    else if !locker.available then Screen(db, shown, [])
    else if !confirmed then Screen(db, shown, [ConfirmReservation(locker.number)])
    else match write
      case Err(message) =>
        Screen(db, shown, [ConfirmReservation(locker.number), Failed(message)])
      case Ok =>
        var after := MarkPending(db, locker.id);
        var listing := FetchLockers(after, refetch, shown);
        Screen(after, listing.lockers,
               [ConfirmReservation(locker.number), Reserved(locker.number)] + listing.alerts)
  }

  /** A locker may be reserved when the screen saw it neither pending nor unavailable. */
  predicate Eligible(locker: Locker)
  {
    locker.status != Pending && locker.available
  }

  // ---------------------------------------------------------------------------
  // Rendering (`renderLocker`)
  // ---------------------------------------------------------------------------

  const AvailableText: string := "متاح"
  const TakenText: string := "محجوز"

  /** The touchable is enabled exactly when the locker is available. */
  predicate Pressable(locker: Locker)
  {
    locker.available
  }

  function Label(locker: Locker): string
  {
    if locker.available then AvailableText else TakenText
  }

  /** A tap on a rendered locker: the button is disabled unless the locker is
      pressable, and a disabled button drops the tap without calling the handler. */
  function Tap(db: Table, shown: seq<Locker>, locker: Locker,
               confirmed: bool, write: Response, refetch: Response): (r: Screen)
    ensures r.alerts == [ContactStaff] ==> locker.available && locker.status == Pending
    ensures r.db != db ==> locker.available && confirmed && write.Ok?
  {
    if Pressable(locker) then HandlePress(db, shown, locker, confirmed, write, refetch)
    else Screen(db, shown, [])
  }

  // ---------------------------------------------------------------------------
  // Properties
  // ---------------------------------------------------------------------------

  /** A locker the screen saw as pending gets the contact-staff alert and nothing
      else, whatever its flag says and whatever the later answers would be. */
  lemma PendingLockerAlertsStaff(db: Table, shown: seq<Locker>, locker: Locker,
                                 confirmed: bool, write: Response, refetch: Response)
    requires locker.status == Pending
    ensures HandlePress(db, shown, locker, confirmed, write, refetch) == Screen(db, shown, [ContactStaff])
  {
  }

  /** A non-pending locker whose flag is off (a booked one, say) is ignored silently. */
  lemma UnavailableLockerIsSilent(db: Table, shown: seq<Locker>, locker: Locker,
                                  confirmed: bool, write: Response, refetch: Response)
    requires locker.status != Pending && !locker.available
    ensures HandlePress(db, shown, locker, confirmed, write, refetch) == Screen(db, shown, [])
  {
  }

  /** Cancelling the dialog leaves the table and the list as they were. */
  lemma CancelChangesNothing(db: Table, shown: seq<Locker>, locker: Locker,
                             write: Response, refetch: Response)
    requires Eligible(locker)
    ensures var s := HandlePress(db, shown, locker, false, write, refetch);
            s.db == db && s.lockers == shown && s.alerts == [ConfirmReservation(locker.number)]
  {
  }

  /** The table after a press is the table before it, marked only when an
      eligible locker's dialog was confirmed and the write succeeded. */
  lemma PressTable(db: Table, shown: seq<Locker>, locker: Locker,
                   confirmed: bool, write: Response, refetch: Response)
    ensures HandlePress(db, shown, locker, confirmed, write, refetch).db
            == if Eligible(locker) && confirmed && write.Ok? then MarkPending(db, locker.id) else db
  {
  }

  /** The table changes only after a confirmed press on an eligible locker whose
      write succeeded, and then only when the row was not already pending. */
  lemma TableChangesIffConfirmedWrite(db: Table, shown: seq<Locker>, locker: Locker,
                                      confirmed: bool, write: Response, refetch: Response)
    ensures var s := HandlePress(db, shown, locker, confirmed, write, refetch);
            s.db != db <==>
              && Eligible(locker) && confirmed && write.Ok?
              && locker.id in db && (db[locker.id].available || db[locker.id].status != Pending)
  {
    PressTable(db, shown, locker, confirmed, write, refetch);
    if Eligible(locker) && confirmed && write.Ok? && locker.id in db {
      var after := MarkPending(db, locker.id);
      if after == db {
        assert db[locker.id] == Row(db[locker.id].number, false, Pending);
      }
      if !db[locker.id].available && db[locker.id].status == Pending {
        assert db[locker.id] == Row(db[locker.id].number, false, Pending);
        assert after == db;
      }
    }
  }

  /** A successful write touches only the pressed locker's row, and of that row only
      the flag and the status: the number and every other row keep their values. */
  lemma WriteTouchesOnlyThatRow(db: Table, shown: seq<Locker>, locker: Locker,
                                confirmed: bool, write: Response, refetch: Response)
    ensures var s := HandlePress(db, shown, locker, confirmed, write, refetch);
            && s.db.Keys == db.Keys
            && (forall id :: id in db && id != locker.id ==> s.db[id] == db[id])
            && (locker.id in db ==> s.db[locker.id].number == db[locker.id].number)
  {
  }

  /** The only change the app makes to a row is to `pending` with the flag off:
      it never writes `booked`, and never makes a locker available again. */
  lemma OnlyTransitionIsToPending(db: Table, shown: seq<Locker>, locker: Locker,
                                  confirmed: bool, write: Response, refetch: Response)
    ensures var s := HandlePress(db, shown, locker, confirmed, write, refetch);
            forall id :: id in db ==>
              s.db[id] == db[id] || (s.db[id].status == Pending && !s.db[id].available)
  {
  }

  /** Reservation keeps the intended flag/status relation on every row. */
  lemma ReservationKeepsConsistency(db: Table, shown: seq<Locker>, locker: Locker,
                                    confirmed: bool, write: Response, refetch: Response)
    requires AllConsistent(db)
    ensures AllConsistent(HandlePress(db, shown, locker, confirmed, write, refetch).db)
  {
  }

  /** A failed write changes nothing on either side and skips the re-fetch. */
  lemma FailedWriteChangesNothing(db: Table, shown: seq<Locker>, locker: Locker,
                                  message: string, refetch: Response)
    requires Eligible(locker)
    ensures HandlePress(db, shown, locker, true, Err(message), refetch)
            == Screen(db, shown, [ConfirmReservation(locker.number), Failed(message)])
  {
  }

  /** After a successful write the list is re-fetched from the updated table: it
      then shows the reserved locker as pending, neither available nor pressable. */
  lemma {:induction false} RefetchShowsReservation(db: Table, shown: seq<Locker>, locker: Locker)
    requires Eligible(locker) && locker.id in db
    ensures var s := HandlePress(db, shown, locker, true, Ok, Ok);
            && s.lockers == Rows(s.db)
            && s.alerts == [ConfirmReservation(locker.number), Reserved(locker.number)]
            && exists i :: 0 <= i < |s.lockers| && s.lockers[i].id == locker.id
    ensures var s := HandlePress(db, shown, locker, true, Ok, Ok);
            forall i :: 0 <= i < |s.lockers| && s.lockers[i].id == locker.id ==>
              s.lockers[i].status == Pending && !Pressable(s.lockers[i]) && Label(s.lockers[i]) == TakenText
  {
    var after := MarkPending(db, locker.id);
    var rows := Rows(after);
    assert HandlePress(db, shown, locker, true, Ok, Ok)
           == Screen(after, rows, [ConfirmReservation(locker.number), Reserved(locker.number)]);
    assert locker.id in after;
    forall i | 0 <= i < |rows| && rows[i].id == locker.id
      ensures rows[i].status == Pending && !Pressable(rows[i]) && Label(rows[i]) == TakenText
    {
      assert rows[i] == LockerAt(after, locker.id);
    }
  }

  /** The re-fetch failing keeps the old list on screen behind an error alert,
      although the write itself went through. */
  lemma FailedRefetchKeepsOldList(db: Table, shown: seq<Locker>, locker: Locker, message: string)
    requires Eligible(locker)
    ensures var s := HandlePress(db, shown, locker, true, Ok, Err(message));
            && s.db == MarkPending(db, locker.id)
            && s.lockers == shown
            && s.alerts == [ConfirmReservation(locker.number), Reserved(locker.number), Failed(message)]
  {
  }

  /** The write is blind: it is decided from the screen's copy, so a row that is
      already pending in the table is overwritten with the same values and the
      user is told the reservation succeeded. */
  lemma BlindWriteReportsSuccess(db: Table, shown: seq<Locker>, locker: Locker)
    requires Eligible(locker) && locker.id in db
    requires db[locker.id].status == Pending && !db[locker.id].available
    ensures var s := HandlePress(db, shown, locker, true, Ok, Ok);
            s.db == db && Reserved(locker.number) in s.alerts
  {
  }

  /** Two users pressing the same locker from the same stale list both succeed:
      both are told the locker is theirs, and the table ends as after one write. */
  lemma {:induction false} RaceBothSucceed(db: Table, shown1: seq<Locker>, shown2: seq<Locker>, locker: Locker)
    requires Eligible(locker)
    ensures var first := HandlePress(db, shown1, locker, true, Ok, Ok);
            var second := HandlePress(first.db, shown2, locker, true, Ok, Ok);
            && Reserved(locker.number) in first.alerts
            && Reserved(locker.number) in second.alerts
            && second.db == first.db
  {
    var first := HandlePress(db, shown1, locker, true, Ok, Ok);
    var second := HandlePress(first.db, shown2, locker, true, Ok, Ok);
    assert first.alerts[1] == Reserved(locker.number);
    assert second.alerts[1] == Reserved(locker.number);
    MarkPendingIdempotent(db, locker.id);
  }

  lemma MarkPendingIdempotent(db: Table, id: int)
    ensures MarkPending(MarkPending(db, id), id) == MarkPending(db, id)
  {
  }

  /** `fetchLockers` lists every row of the table exactly once, in ascending id
      order; on error the previous list stays and the message is shown. */
  lemma FetchListsTableInIdOrder(db: Table, response: Response, shown: seq<Locker>)
    ensures var r := FetchLockers(db, response, shown);
            response.Ok? ==>
              && |r.lockers| == |db|
              && (forall i, j :: 0 <= i < j < |r.lockers| ==> r.lockers[i].id < r.lockers[j].id)
              && (forall i :: 0 <= i < |r.lockers| ==> r.lockers[i].id in db
                                                       && RowOf(r.lockers[i]) == db[r.lockers[i].id])
              && (forall id :: id in db ==> exists i :: 0 <= i < |r.lockers| && r.lockers[i].id == id)
    ensures var r := FetchLockers(db, response, shown);
            response.Err? ==> r.lockers == shown && r.alerts == [Failed(response.message)]
  {
  }

  /** A locker is pressable exactly when it is labelled available. */
  lemma PressableIffLabelledAvailable(locker: Locker)
    ensures Pressable(locker) <==> Label(locker) == AvailableText
    ensures !Pressable(locker) <==> Label(locker) == TakenText
  {
  }

  /** Through the rendered list, the contact-staff alert needs a row that breaks
      the flag/status relation: a consistent pending locker is disabled, so it
      cannot be pressed at all. */
  lemma ContactStaffNeedsInconsistentRow(db: Table, shown: seq<Locker>, locker: Locker,
                                         confirmed: bool, write: Response, refetch: Response)
    requires Pressable(locker)
    requires HandlePress(db, shown, locker, confirmed, write, refetch).alerts == [ContactStaff]
    ensures !Consistent(RowOf(locker))
  {
  }

  /** The disabled flag changes what a tap does for exactly one kind of locker:
      a pending one that is already taken, whose staff alert the handler would
      show but the disabled button never lets it reach. */
  lemma TapDiffersOnlyOnTakenPending(db: Table, shown: seq<Locker>, locker: Locker,
                                     confirmed: bool, write: Response, refetch: Response)
    ensures Tap(db, shown, locker, confirmed, write, refetch) != HandlePress(db, shown, locker, confirmed, write, refetch)
            <==> locker.status == Pending && !locker.available
  {
  }

  /** For a consistent row a tap never produces the staff alert. */
  lemma ConsistentTapNeverAlertsStaff(db: Table, shown: seq<Locker>, locker: Locker,
                                      confirmed: bool, write: Response, refetch: Response)
    requires Consistent(RowOf(locker))
    ensures Tap(db, shown, locker, confirmed, write, refetch).alerts != [ContactStaff]
  {
  }
}

=== FILE: common.dfy ===
/** Shared vocabulary: optional values, the outcome of one backend call, and
    order-preserving filtering (`Array.prototype.filter`). */
module Common {

  /** A value that may be absent (`undefined` / `null` in the app). */
  datatype Option<+T> = None | Some(value: T)

  /** The outcome of one request to the hosted backend. The backend itself is not
      modelled: whether a call succeeds is an input to every operation that makes one. */
  datatype Response = Ok | Err(message: string)

  /** The elements of `s` that satisfy `keep`, in their original order. */
  function Filter<T>(s: seq<T>, keep: T -> bool): (r: seq<T>)
    ensures |r| <= |s|
    ensures forall i :: 0 <= i < |r| ==> keep(r[i]) && r[i] in s
    ensures forall i :: 0 <= i < |s| && keep(s[i]) ==> s[i] in r
    decreases |s|
  {
    if |s| == 0 then []
    else if keep(s[0]) then [s[0]] + Filter(s[1..], keep)
    else Filter(s[1..], keep)
  }

  /** Filtering distributes over concatenation, so it keeps the relative order of
      the elements it keeps. */
  lemma {:induction false} FilterAppend<T>(a: seq<T>, b: seq<T>, keep: T -> bool)
    ensures Filter(a + b, keep) == Filter(a, keep) + Filter(b, keep)
    decreases |a|
  {
    if |a| > 0 {
      assert (a + b)[0] == a[0];
      assert (a + b)[1..] == a[1..] + b;
      FilterAppend(a[1..], b, keep);
    } else {
      assert a + b == b;
    }
  }

  /** Filtering keeps nothing exactly when no element satisfies `keep`. */
  lemma {:induction false} FilterEmpty<T>(s: seq<T>, keep: T -> bool)
    ensures Filter(s, keep) == [] <==> forall i :: 0 <= i < |s| ==> !keep(s[i])
    decreases |s|
  {
    if |s| > 0 {
      FilterEmpty(s[1..], keep);
      if !keep(s[0]) {
        forall i | 0 < i < |s| && !keep(s[1..][i - 1])
          ensures !keep(s[i])
        {
        }
      }
    }
  }
}

=== FILE: gym_status.dfy ===
/** The opening-hours screen of app/status.tsx: whether the gym is open at a given
    hour of the day, and the texts, icon and colours chosen from that. The hour is
    an input; the app reads it from the device clock (`getHours`, 0 to 23). */
module GymStatus {

  const OpeningHour: int := 11

  /** `isGymOpen`. The second disjunct can never hold for a clock hour. */
  function IsGymOpen(hour: int): bool
  {
    hour >= OpeningHour || hour < 0
  }

  predicate IsClockHour(hour: int)
  {
    0 <= hour <= 23
  }

  datatype Icon = Fitness | CloseCircle

  /** What the screen shows: the gradient, the icon, the status line and the
      opening-hours line. */
  datatype View = View(colors: seq<string>, icon: Icon, statusText: string, timeText: string)

  const OpenView: View :=
    View(["#4CAF50", "#45a049"], Fitness, "الصالة مفتوحة", "مفتوحة حتى 12:00 صباحاً")
  const ClosedView: View :=
    View(["#f44336", "#d32f2f"], CloseCircle, "الصالة مغلقة", "تفتح الساعة 11:00 صباحاً")

  function StatusView(hour: int): View
  {
    if IsGymOpen(hour) then OpenView else ClosedView
  }

  /** On the clock, the gym is open from 11:00 through 23:59 and closed from
      midnight through 10:59, as the app's comment intends. */
  lemma OpenFromElevenToMidnight(hour: int)
    requires IsClockHour(hour)
    ensures IsGymOpen(hour) <==> OpeningHour <= hour <= 23
    ensures !IsGymOpen(hour) <==> 0 <= hour < OpeningHour
  {
  }

  /** The `hour < 0` disjunct is dead for clock hours: dropping it changes nothing. */
  lemma NegativeHourDisjunctIsDead(hour: int)
    requires IsClockHour(hour)
    ensures IsGymOpen(hour) == (hour >= OpeningHour)
  {
  }

  /** The view follows the verdict and only it: on the clock, hours 11 to 23
      get the open colours, icon and texts and hours 0 to 10 the closed ones, and
      the two views differ in status text, time text and icon. */
  lemma ViewFollowsVerdict(hour: int)
    ensures IsGymOpen(hour) ==> StatusView(hour) == OpenView
    ensures !IsGymOpen(hour) ==> StatusView(hour) == ClosedView
    ensures IsClockHour(hour) ==> (StatusView(hour) == OpenView <==> OpeningHour <= hour)
    ensures IsClockHour(hour) ==> (StatusView(hour) == ClosedView <==> hour < OpeningHour)
    ensures OpenView.statusText != ClosedView.statusText
    ensures OpenView.timeText != ClosedView.timeText
    ensures OpenView.icon != ClosedView.icon
  {
    assert OpenView.statusText[8] != ClosedView.statusText[8];
    assert OpenView.timeText[0] != ClosedView.timeText[0];
  }
}

=== FILE: helpers.dfy ===
/** The sign-up e-mail validator of utils/helpers.ts (`testEmail`).

    An address is accepted when splitting it on `@` gives exactly two parts, the
    first of which is eleven characters long (a phone number, by convention only)
    and the second of which, lower-cased, starts with `rockygym`. */
module Helpers {

  const Separator: char := '@'
  const LocalLength: nat := 11
  const DomainPrefix: string := "rockygym"

  /** Number of occurrences of `c` in `s`. */
  function Count(s: string, c: char): nat
  {
    if |s| == 0 then 0 else (if s[0] == c then 1 else 0) + Count(s[1..], c)
  }

  lemma {:induction false} CountZero(s: string, c: char)
    ensures Count(s, c) == 0 <==> c !in s
  {
    if |s| > 0 {
      CountZero(s[1..], c);
      assert s == [s[0]] + s[1..];
    }
  }

  lemma {:induction false} CountAppend(a: string, b: string, c: char)
    ensures Count(a + b, c) == Count(a, c) + Count(b, c)
  {
    if |a| == 0 {
      assert a + b == b;
    } else {
      assert (a + b)[1..] == a[1..] + b;
      CountAppend(a[1..], b, c);
    }
  }

  /** Index of the first `c` in `s`, or `|s|` when there is none. */
  function IndexOf(s: string, c: char): (i: nat)
    ensures i <= |s|
    ensures i < |s| ==> s[i] == c
    ensures c !in s[..i]
  {
    if |s| == 0 then 0
    else if s[0] == c then 0
    else
      var j := IndexOf(s[1..], c);
      assert s[..j + 1] == [s[0]] + s[1..][..j];
      1 + j
  }

  /** `parts.join(sep)`: the inverse of `Split`. */
  function Join(parts: seq<string>, sep: char): string
  {
    if |parts| == 0 then ""
    else if |parts| == 1 then parts[0]
    else parts[0] + [sep] + Join(parts[1..], sep)
  }

  /** `s.split(sep)` for a one-character separator, with JavaScript's edge cases:
      the result is never empty, a string without `sep` splits into itself, and
      a leading, trailing or doubled `sep` yields empty parts. */
  function Split(s: string, sep: char): (parts: seq<string>)
    ensures |parts| == Count(s, sep) + 1
    ensures forall i :: 0 <= i < |parts| ==> sep !in parts[i]
    ensures Join(parts, sep) == s
    decreases |s|
  {
    var i := IndexOf(s, sep);
    if i == |s| then
      CountZero(s, sep);
      assert s[..i] == s;
      [s]
    else
      var rest := Split(s[i + 1..], sep);
      assert s == s[..i] + [sep] + s[i + 1..];
      CountAppend(s[..i] + [sep], s[i + 1..], sep);
      CountAppend(s[..i], [sep], sep);
      CountZero(s[..i], sep);
      [s[..i]] + rest
  }

  /** Splitting undoes joining whenever no part contains the separator. */
  lemma {:induction false} SplitJoin(parts: seq<string>, sep: char)
    requires |parts| >= 1
    requires forall i :: 0 <= i < |parts| ==> sep !in parts[i]
    ensures Split(Join(parts, sep), sep) == parts
  {
    var s := Join(parts, sep);
    var p := parts[0];
    if |parts| == 1 {
      IndexOfAbsent(p, sep);
    } else {
      var tail := Join(parts[1..], sep);
      assert s == p + [sep] + tail;
      IndexOfAfterPrefix(p, tail, sep);
      assert s[..|p|] == p;
      assert s[|p| + 1..] == tail;
      SplitJoin(parts[1..], sep);
      assert parts == [p] + parts[1..];
    }
  }

  lemma IndexOfAbsent(s: string, c: char)
    requires c !in s
    ensures IndexOf(s, c) == |s|
  {
  }

  lemma IndexOfAfterPrefix(p: string, tail: string, c: char)
    requires c !in p
    ensures IndexOf(p + [c] + tail, c) == |p|
  {
    var s := p + [c] + tail;
    var i := IndexOf(s, c);
    assert s[|p|] == c;
  }

  /** ASCII lower-casing of one character. */
  function LowerChar(c: char): char
  {
    if 'A' <= c <= 'Z' then (c as int + 32) as char else c
  }

  /** ASCII lower-casing of a string, character by character. */
  function Lower(s: string): (r: string)
    ensures |r| == |s|
    ensures forall i :: 0 <= i < |r| ==> !('A' <= r[i] <= 'Z')
    ensures forall i :: 0 <= i < |s| && 'A' <= s[i] <= 'Z' ==> r[i] as int == s[i] as int + 32
    ensures forall i :: 0 <= i < |s| && !('A' <= s[i] <= 'Z') ==> r[i] == s[i]
  {
    seq(|s|, i requires 0 <= i < |s| => LowerChar(s[i]))
  }

  /** `Lower` applies `LowerChar` at every position. */
  lemma LowerCharwise(s: string)
    ensures forall i :: 0 <= i < |s| ==> Lower(s)[i] == LowerChar(s[i])
  {
  }

  /** Lower-casing twice is lower-casing once. */
  lemma LowerIdempotent(s: string)
    ensures Lower(Lower(s)) == Lower(s)
  {
  }

  predicate StartsWith(s: string, prefix: string)
  {
    |prefix| <= |s| && s[..|prefix|] == prefix
  }

  /** The prefix test compares position by position, and a longer text with
      the same start still passes. */
  lemma StartsWithPositions(s: string, prefix: string, tail: string)
    ensures StartsWith(s, prefix) <==> |prefix| <= |s| && forall i :: 0 <= i < |prefix| ==> s[i] == prefix[i]
    ensures StartsWith(s, prefix) ==> StartsWith(s + tail, prefix)
  {
    if StartsWith(s, prefix) {
      assert (s + tail)[..|prefix|] == s[..|prefix|];
    }
    if |prefix| <= |s| && forall i :: 0 <= i < |prefix| ==> s[i] == prefix[i] {
      assert s[..|prefix|] == prefix;
    }
  }

  /** `testEmail`: the sign-up address check. */
  function TestEmail(email: string): bool
  {
    var tokens := Split(email, Separator);
    if |tokens| != 2 || |tokens[0]| != LocalLength then false
    else if !StartsWith(Lower(tokens[1]), DomainPrefix) then false
    else true
  }

  /** The accepted addresses described position by position, without splitting:
      exactly one `@`, at index 11, followed by eight characters that spell
      `rockygym` in any mix of letter cases. */
  predicate AcceptedShape(s: string)
  {
    && |s| >= LocalLength + 1 + |DomainPrefix|
    && s[LocalLength] == Separator
    && (forall i :: 0 <= i < |s| && i != LocalLength ==> s[i] != Separator)
    && (forall i :: 0 <= i < |DomainPrefix| ==> LowerChar(s[LocalLength + 1 + i]) == DomainPrefix[i])
  }

  /** An address with exactly one `@` splits at it into local part and domain. */
  lemma SplitOneAt(s: string)
    requires Count(s, Separator) == 1
    ensures var i := IndexOf(s, Separator);
            i < |s| && Split(s, Separator) == [s[..i], s[i + 1..]]
  {
    var i := IndexOf(s, Separator);
    CountZero(s, Separator);
    var parts := [s[..i], s[i + 1..]];
    assert s == s[..i] + [Separator] + s[i + 1..];
    CountAppend(s[..i] + [Separator], s[i + 1..], Separator);
    CountAppend(s[..i], [Separator], Separator);
    CountZero(s[..i], Separator);
    CountZero(s[i + 1..], Separator);
    assert Join(parts, Separator) == s;
    SplitJoin(parts, Separator);
  }

  /** `testEmail` accepts exactly the addresses of `AcceptedShape`. */
  lemma {:induction false} TestEmailCharacterised(s: string)
    ensures TestEmail(s) <==> AcceptedShape(s)
  {
    if TestEmail(s) {
      SplitOneAt(s);
      var i := IndexOf(s, Separator);
      var tokens := Split(s, Separator);
      assert i == LocalLength;
      forall j | 0 <= j < |s| && j != LocalLength
        ensures s[j] != Separator
      {
        if j < LocalLength {
          assert s[j] == tokens[0][j];
        } else {
          assert s[j] == tokens[1][j - LocalLength - 1];
        }
      }
      LowerCharwise(tokens[1]);
      forall j | 0 <= j < |DomainPrefix|
        ensures LowerChar(s[LocalLength + 1 + j]) == DomainPrefix[j]
      {
        assert Lower(tokens[1])[..|DomainPrefix|][j] == DomainPrefix[j];
      }
    }
    if AcceptedShape(s) {
      var local, domain := s[..LocalLength], s[LocalLength + 1..];
      assert s == local + [Separator] + domain;
      assert Separator !in local by {
        forall j | 0 <= j < |local| ensures local[j] != Separator { assert local[j] == s[j]; }
      }
      assert Separator !in domain by {
        forall j | 0 <= j < |domain| ensures domain[j] != Separator { assert domain[j] == s[LocalLength + 1 + j]; }
      }
      assert Join([local, domain], Separator) == s;
      SplitJoin([local, domain], Separator);
      LowerCharwise(domain);
      assert Lower(domain)[..|DomainPrefix|] == DomainPrefix;
    }
  }

  /** Any address without exactly one `@` is rejected: none at all, or two and more. */
  lemma RejectsUnlessOneSeparator(s: string)
    requires Count(s, Separator) != 1
    ensures !TestEmail(s)
  {
  }

  /** With a well-formed local part, the verdict is decided by the domain alone. */
  lemma {:induction false} DomainDecides(local: string, domain: string)
    requires |local| == LocalLength && Separator !in local && Separator !in domain
    ensures TestEmail(local + [Separator] + domain) <==> StartsWith(Lower(domain), DomainPrefix)
  {
    var s := local + [Separator] + domain;
    assert Join([local, domain], Separator) == s;
    SplitJoin([local, domain], Separator);
  }

  /** A local part that is not eleven characters long is rejected, whatever follows the `@`. */
  lemma {:induction false} RejectsWrongLocalLength(local: string, domain: string)
    requires Separator !in local && |local| != LocalLength
    ensures !TestEmail(local + [Separator] + domain)
  {
    var s := local + [Separator] + domain;
    if Separator in domain {
      CountZero(local, Separator);
      CountZero(domain, Separator);
      CountAppend(local + [Separator], domain, Separator);
      CountAppend(local, [Separator], Separator);
    } else {
      assert Join([local, domain], Separator) == s;
      SplitJoin([local, domain], Separator);
    }
  }

  /** The domain comparison ignores letter case: two domains that lower-case to the
      same text give the same verdict, whatever the local part. */
  lemma {:induction false} DomainCaseInsensitive(local: string, d1: string, d2: string)
    requires Lower(d1) == Lower(d2)
    ensures TestEmail(local + [Separator] + d1) == TestEmail(local + [Separator] + d2)
  {
    var s1, s2 := local + [Separator] + d1, local + [Separator] + d2;
    assert |s1| == |s2|;
    forall i | 0 <= i < |s1|
      ensures LowerChar(s1[i]) == LowerChar(s2[i])
    {
      if i > |local| {
        assert s1[i] == d1[i - |local| - 1] && s2[i] == d2[i - |local| - 1];
        assert Lower(d1)[i - |local| - 1] == Lower(d2)[i - |local| - 1];
      }
    }
    forall i | 0 <= i < |s1|
      ensures s1[i] == Separator <==> s2[i] == Separator
    {
      assert LowerChar(s1[i]) == LowerChar(s2[i]);
    }
    TestEmailCharacterised(s1);
    TestEmailCharacterised(s2);
  }

  /** The domain check is a prefix test only: anything may follow `rockygym`. */
  lemma {:induction false} AcceptsAnyDomainSuffix(local: string, rest: string)
    requires |local| == LocalLength && Separator !in local && Separator !in rest
    ensures TestEmail(local + [Separator] + DomainPrefix + rest)
  {
    var domain := DomainPrefix + rest;
    assert local + [Separator] + DomainPrefix + rest == local + [Separator] + domain;
    DomainDecides(local, domain);
    assert Lower(domain)[..|DomainPrefix|] == DomainPrefix;
  }

  /** An empty domain is rejected even when the local part is well formed. */
  lemma {:induction false} RejectsEmptyDomain(local: string)
    ensures !TestEmail(local + [Separator])
  {
    var s := local + [Separator];
    assert s[|local|] == Separator;
    TestEmailCharacterised(s);
  }

  /** A concrete address that passes although its local part is letters rather than
      a phone number, which the sign-up screen's error message asks for. */
  lemma LettersPassAsPhoneNumber()
    ensures TestEmail("abcdefghijk@rockygym.com")
  {
    assert "abcdefghijk@rockygym.com" == "abcdefghijk" + [Separator] + DomainPrefix + ".com";
    AcceptsAnyDomainSuffix("abcdefghijk", ".com");
  }

  /** A concrete upper-case domain that passes. */
  lemma UpperCaseDomainPasses()
    ensures TestEmail("01234567890@ROCKYGYM.com")
  {
    var domain := "ROCKYGYM.com";
    assert "01234567890@ROCKYGYM.com" == "01234567890" + [Separator] + domain;
    DomainDecides("01234567890", domain);
    UpperCaseDomainLowers();
  }

  /** `ROCKYGYM.com` lower-cases to a text that starts with `rockygym`. */
  lemma UpperCaseDomainLowers()
    ensures StartsWith(Lower("ROCKYGYM.com"), DomainPrefix)
  {
    var low := Lower("ROCKYGYM.com");
    assert low[0] == 'r' && low[1] == 'o' && low[2] == 'c' && low[3] == 'k';
    assert low[4] == 'y' && low[5] == 'g' && low[6] == 'y' && low[7] == 'm';
    assert low[..|DomainPrefix|] == DomainPrefix;
  }
}

=== FILE: subscription.dfy ===
/** The subscription screen of app/subscription.tsx: the end date of a new
    subscription (`getFinishedAt`), the one-subscription-per-e-mail gate in front
    of the insert (`handleConfirm`), the dropdown built from the price list, the
    per-type sections and the subscribe button's visibility.

    Dates are day numbers. Calendar arithmetic is not modelled: the end date is
    the start date plus a symbolic offset such as "2 months". */
module Subscription {
  import opened Common

  /** One row of `gym_pricelist`. */
  datatype PriceItem = PriceItem(id: int, kind: string, title: string,
                                 description: Option<string>, price: int, duration: string)

  datatype Unit = Day | Week | Month | Year

  /** An amount of calendar units, as passed to `moment().add(amount, unit)`. */
  datatype Offset = Offset(amount: nat, unit: Unit)

  /** One row of `users_subscription`. The insert leaves `status` to the
      database default, taken here to be false. */
  datatype SubscriptionRow = SubscriptionRow(userEmail: string, subscriptionType: string,
                                             createdAt: int, term: Offset, status: bool)

  const InitialType: string := "monthly"

  // ---------------------------------------------------------------------------
  // End date (`getFinishedAt`)
  // ---------------------------------------------------------------------------

  /** The chain of duration comparisons; anything unrecognised lasts one year. */
  function DurationOffset(duration: string): Offset
  {
    if duration == "day" then Offset(1, Day)
    else if duration == "month" then Offset(1, Month)
    else if duration == "week" then Offset(1, Week)
    else if duration == "half month" then Offset(2, Week)
    else if duration == "2 months" then Offset(2, Month)
    else if duration == "3 months" then Offset(3, Month)
    else if duration == "6 months" then Offset(6, Month)
    else Offset(1, Year)
  }

  /** The recognised durations, as a table. */
  const KnownDurations: map<string, Offset> := map[
    "day" := Offset(1, Day),
    "week" := Offset(1, Week),
    "half month" := Offset(2, Week),
    "month" := Offset(1, Month),
    "2 months" := Offset(2, Month),
    "3 months" := Offset(3, Month),
    "6 months" := Offset(6, Month)
  ]

  /** A lower bound on the days an offset spans in the Gregorian calendar,
      month-end clamping included: 28 days per month, 365 per year. The bound is
      exact for one day, week, month or year; for several months the shortest
      real span is longer (59 days for two months). */
  function MinDays(o: Offset): nat
  {
    o.amount * match o.unit
      case Day => 1
      case Week => 7
      case Month => 28
      case Year => 365
  }

  /** The first price-list item with the given title (`filter(...)[0]`). */
  function FirstWithTitle(priceList: seq<PriceItem>, title: string): (r: Option<PriceItem>)
    ensures r.None? <==> forall i :: 0 <= i < |priceList| ==> priceList[i].title != title
    ensures r.Some? ==> exists i :: 0 <= i < |priceList| && priceList[i] == r.value
                          && r.value.title == title
                          && forall j :: 0 <= j < i ==> priceList[j].title != title
  {
    if |priceList| == 0 then None
    else if priceList[0].title == title then Some(priceList[0])
    else
      var r := FirstWithTitle(priceList[1..], title);
      FirstWithTitleShift(priceList, title, r);
      r
  }

  lemma FirstWithTitleShift(priceList: seq<PriceItem>, title: string, r: Option<PriceItem>)
    requires |priceList| > 0 && priceList[0].title != title
    requires r.Some? ==> exists i :: 0 <= i < |priceList[1..]| && priceList[1..][i] == r.value
                           && r.value.title == title
                           && forall j :: 0 <= j < i ==> priceList[1..][j].title != title
    ensures r.Some? ==> exists i :: 0 <= i < |priceList| && priceList[i] == r.value
                          && r.value.title == title
                          && forall j :: 0 <= j < i ==> priceList[j].title != title
  {
    if r.Some? {
      var i :| 0 <= i < |priceList[1..]| && priceList[1..][i] == r.value
               && r.value.title == title
               && forall j :: 0 <= j < i ==> priceList[1..][j].title != title;
      assert priceList[i + 1] == r.value;
      forall j | 0 <= j < i + 1
        ensures priceList[j].title != title
      {
        if j > 0 {
          assert priceList[j] == priceList[1..][j - 1];
        }
      }
    }
  }

  /** `getFinishedAt`, as the offset from today. None stands for the TypeError
      the app raises when no item carries the selected title. */
  function FinishedAt(priceList: seq<PriceItem>, selectedType: string): Option<Offset>
  {
    match FirstWithTitle(priceList, selectedType)
    case None => None
    case Some(item) => Some(DurationOffset(item.duration))
  }

  // ---------------------------------------------------------------------------
  // Subscribing (`handleConfirm`)
  // ---------------------------------------------------------------------------

  datatype Notice =
    | AlreadySubscribed   // the e-mail already has a row
    | PartlySubscribed    // the row was inserted; staff must confirm it
    | SubmitFailed        // anything thrown inside the handler

  /** The state after pressing confirm: the table, the alert, the dropdown's
      selection and whether the modal is still open. */
  datatype Confirmation = Confirmation(table: seq<SubscriptionRow>, notice: Notice,
                                       selectedType: string, modalVisible: bool)

  /** The rows the query `.eq("user_email", email)` returns, in table order. */
  function RowsFor(table: seq<SubscriptionRow>, email: string): (r: seq<SubscriptionRow>)
    ensures forall i :: 0 <= i < |r| ==> r[i].userEmail == email && r[i] in table
    ensures forall i :: 0 <= i < |table| && table[i].userEmail == email ==> table[i] in r
  {
    Filter(table, (s: SubscriptionRow) => s.userEmail == email)
  }

  /** `handleConfirm`. `lookup` is the response of the duplicate query: on error
      its data is null, so the gate lets the insert through. The insert happens
      only when the end date can be computed. */
  function HandleConfirm(table: seq<SubscriptionRow>, email: string, selectedType: string,
                         priceList: seq<PriceItem>, today: int,
                         lookup: Response, insert: Response): Confirmation
  {
    if lookup.Ok? && |RowsFor(table, email)| > 0 then
      Confirmation(table, AlreadySubscribed, selectedType, true)
    else match FinishedAt(priceList, selectedType)
      case None => Confirmation(table, SubmitFailed, selectedType, true)
      case Some(term) =>
        match insert
        case Err(_) => Confirmation(table, SubmitFailed, selectedType, true)
        case Ok =>
          var row := SubscriptionRow(email, selectedType, today, term, false);
          Confirmation(table + [row], PartlySubscribed, InitialType, false)
  }

  // ---------------------------------------------------------------------------
  // Price list views
  // ---------------------------------------------------------------------------

  datatype DropdownItem = DropdownItem(caption: string, value: string)

  const LabelSeparator: string := " EGP\t\t\t"

  function DigitChar(d: nat): char
    requires d < 10
  {
    "0123456789"[d]
  }

  /** A non-negative integer in decimal, as JavaScript prints it. */
  function NatToString(n: nat): (s: string)
    ensures |s| >= 1
    ensures forall i :: 0 <= i < |s| ==> '0' <= s[i] <= '9'
    ensures |s| == 1 || s[0] != '0'
  {
    if n < 10 then [DigitChar(n)] else NatToString(n / 10) + [DigitChar(n % 10)]
  }

  /** A price as a template literal prints it: a minus sign for a negative one,
      then the digits of its magnitude. */
  function IntToString(n: int): (r: string)
    ensures |r| >= 1
    ensures r[0] == '-' <==> n < 0
    ensures n < 0 ==> |r| >= 2 && r[1] != '0'
    ensures forall i :: (if n < 0 then 1 else 0) <= i < |r| ==> '0' <= r[i] <= '9'
  {
    if n < 0 then "-" + NatToString(-n) else NatToString(n)
  }

  function DigitValue(c: char): nat
  {
    if '0' <= c <= '9' then c as int - '0' as int else 0
  }

  /** Reads a decimal numeral back; the inverse of `NatToString`. */
  function ParseNat(s: string): nat
  {
    if |s| == 0 then 0 else 10 * ParseNat(s[..|s| - 1]) + DigitValue(s[|s| - 1])
  }

  function ParseInt(s: string): int
  {
    if |s| > 0 && s[0] == '-' then -(ParseNat(s[1..]) as int) else ParseNat(s)
  }

  /** The entries the dropdown starts with. A successful price-list request
      replaces them; a failed one leaves them while the price list stays empty. */
  const PlaceholderItems: seq<DropdownItem> := [
    DropdownItem("Monthly Subscription", "monthly"),
    DropdownItem("Offer Subscription", "offer"),
    DropdownItem("Package Subscription", "package"),
    DropdownItem("Session Subscription", "session")
  ]

  /** The dropdown entries built from the fetched price list. */
  function DropdownItems(priceList: seq<PriceItem>): seq<DropdownItem>
  {
    seq(|priceList|, i requires 0 <= i < |priceList| =>
      DropdownItem(IntToString(priceList[i].price) + LabelSeparator + priceList[i].title,
                   priceList[i].title))
  }

  /** The items listed under the section of the given type. */
  function Section(priceList: seq<PriceItem>, kind: string): seq<PriceItem>
  {
    Filter(priceList, (item: PriceItem) => item.kind == kind)
  }

  const SectionKinds: seq<string> := ["monthly", "offer", "package", "session"]

  /** The subscribe button is hidden only when the price list loaded (an error
      there is thrown before the lookup runs), the `.single()` status lookup
      answered, that lookup found exactly one row for the e-mail, and that row's
      status is set. A failed lookup, or one matching zero or several rows,
      yields null data and leaves the button visible. */
  function ButtonVisible(table: seq<SubscriptionRow>, email: string, prices: Response, lookup: Response): bool
  {
    if prices.Err? || lookup.Err? then true
    else
      var mine := RowsFor(table, email);
      !(|mine| == 1 && mine[0].status)
  }

  // ---------------------------------------------------------------------------
  // Properties
  // ---------------------------------------------------------------------------

  /** The duration chain agrees with the table of recognised durations and falls
      back to one year for anything else. */
  lemma DurationMatchesTable(duration: string)
    ensures duration in KnownDurations ==> DurationOffset(duration) == KnownDurations[duration]
    ensures duration !in KnownDurations ==> DurationOffset(duration) == Offset(1, Year)
  {
  }

  /** Every term is positive, so the end date is strictly later than the start. */
  lemma EveryTermIsPositive(duration: string)
    ensures DurationOffset(duration).amount >= 1
    ensures MinDays(DurationOffset(duration)) >= 1
  {
  }

  /** The recognised durations, shortest first, ending with the one-year default. */
  const DurationsByLength: seq<string> :=
    ["day", "week", "half month", "month", "2 months", "3 months", "6 months", "year"]

  /** The durations are ordered by length: each one's lower bound in days is
      larger than the one before it. */
  lemma DurationsGrowInLength()
    ensures forall i, j :: 0 <= i < j < |DurationsByLength| ==>
              MinDays(DurationOffset(DurationsByLength[i])) < MinDays(DurationOffset(DurationsByLength[j]))
  {
    var days := seq(|DurationsByLength|, i requires 0 <= i < |DurationsByLength| =>
                      MinDays(DurationOffset(DurationsByLength[i])));
    assert days == [1, 7, 14, 28, 56, 84, 168, 365];
  }

  /** `getFinishedAt` reads the duration of the first item with the selected title;
      when there is none it fails. */
  lemma FinishedAtUsesFirstMatch(priceList: seq<PriceItem>, selectedType: string, i: nat)
    requires i < |priceList| && priceList[i].title == selectedType
    requires forall j :: 0 <= j < i ==> priceList[j].title != selectedType
    ensures FinishedAt(priceList, selectedType) == Some(DurationOffset(priceList[i].duration))
  {
    var r := FirstWithTitle(priceList, selectedType);
    var k :| 0 <= k < |priceList| && priceList[k] == r.value
             && r.value.title == selectedType
             && forall j :: 0 <= j < k ==> priceList[j].title != selectedType;
  }

  lemma FinishedAtFailsWithoutTitle(priceList: seq<PriceItem>, selectedType: string)
    ensures FinishedAt(priceList, selectedType).None?
            <==> forall j :: 0 <= j < |priceList| ==> priceList[j].title != selectedType
  {
  }

  /** An e-mail that already has a row, of any status, is turned away and nothing
      changes but the alert. */
  lemma DuplicateIsRejected(table: seq<SubscriptionRow>, email: string, selectedType: string,
                            priceList: seq<PriceItem>, today: int, insert: Response)
    requires exists i :: 0 <= i < |table| && table[i].userEmail == email
    ensures HandleConfirm(table, email, selectedType, priceList, today, Ok, insert)
            == Confirmation(table, AlreadySubscribed, selectedType, true)
  {
    var i :| 0 <= i < |table| && table[i].userEmail == email;
    assert table[i] in RowsFor(table, email);
  }

  /** Past the gate, exactly one row is appended, carrying the e-mail, the selected
      type, today and the computed term; the selection resets and the modal closes. */
  lemma InsertAppendsOneRow(table: seq<SubscriptionRow>, email: string, selectedType: string,
                            priceList: seq<PriceItem>, today: int, lookup: Response)
    requires lookup.Err? || forall i :: 0 <= i < |table| ==> table[i].userEmail != email
    requires FinishedAt(priceList, selectedType).Some?
    ensures var c := HandleConfirm(table, email, selectedType, priceList, today, lookup, Ok);
            && c.table == table + [SubscriptionRow(email, selectedType, today,
                                               FinishedAt(priceList, selectedType).value, false)]
            && c.notice == PartlySubscribed
            && c.selectedType == InitialType
            && !c.modalVisible
  {
    FilterEmpty(table, (s: SubscriptionRow) => s.userEmail == email);
  }

  /** A confirmation either leaves the table alone or appends one row whose end
      date lies strictly after its start date. */
  lemma InsertedTermEndsLater(table: seq<SubscriptionRow>, email: string, selectedType: string,
                              priceList: seq<PriceItem>, today: int, lookup: Response, insert: Response)
    ensures var c := HandleConfirm(table, email, selectedType, priceList, today, lookup, insert);
            || (c.table == table && c.notice != PartlySubscribed)
            || (&& |c.table| == |table| + 1 && c.table[..|table|] == table
                && c.table[|table|].createdAt == today
                && c.table[|table|].createdAt + MinDays(c.table[|table|].term) > today)
  {
    match FinishedAt(priceList, selectedType)
    case None =>
    case Some(term) =>
      EveryTermIsPositive(FirstWithTitle(priceList, selectedType).value.duration);
  }

  /** A failed insert, or a selected title missing from the price list, leaves
      the table, the selection and the modal as they were. */
  lemma FailedSubmitChangesNothing(table: seq<SubscriptionRow>, email: string, selectedType: string,
                                   priceList: seq<PriceItem>, today: int, lookup: Response, insert: Response)
    requires insert.Err? || FinishedAt(priceList, selectedType).None?
    ensures var c := HandleConfirm(table, email, selectedType, priceList, today, lookup, insert);
            c.table == table && c.selectedType == selectedType && c.modalVisible
            && c.notice != PartlySubscribed
  {
  }

  /** The initial selection is the section type "monthly", not a title: unless an
      item is titled "monthly", confirming without touching the dropdown fails. */
  lemma InitialSelectionNeedsMonthlyTitle(table: seq<SubscriptionRow>, email: string,
                                          priceList: seq<PriceItem>, today: int,
                                          lookup: Response, insert: Response)
    requires forall i :: 0 <= i < |priceList| ==> priceList[i].title != InitialType
    ensures HandleConfirm(table, email, InitialType, priceList, today, lookup, insert).table == table
  {
  }

  ghost predicate AtMostOnePerEmail(table: seq<SubscriptionRow>)
  {
    forall email :: |RowsFor(table, email)| <= 1
  }

  /** When the duplicate query answers, the gate keeps the table at one row per
      e-mail. */
  lemma {:induction false} GateKeepsOnePerEmail(table: seq<SubscriptionRow>, email: string, selectedType: string,
                                                priceList: seq<PriceItem>, today: int, insert: Response)
    requires AtMostOnePerEmail(table)
    ensures AtMostOnePerEmail(HandleConfirm(table, email, selectedType, priceList, today, Ok, insert).table)
  {
    var c := HandleConfirm(table, email, selectedType, priceList, today, Ok, insert);
    if c.table != table {
      var row := c.table[|table|];
      assert c.table == table + [row];
      assert row.userEmail == email;
      assert |RowsFor(table, email)| == 0;
      forall e
        ensures |RowsFor(c.table, e)| <= 1
      {
        FilterAppend(table, [row], (s: SubscriptionRow) => s.userEmail == e);
        assert RowsFor(c.table, e) == RowsFor(table, e) + RowsFor([row], e);
        if e != email {
          assert RowsFor([row], e) == [];
        }
      }
    }
  }

  /** When the duplicate query fails its data is null and the gate is passed: an
      e-mail that already has a row gets a second one. */
  lemma {:induction false} FailedLookupAdmitsDuplicate(email: string, title: string, today: int)
    ensures var table := [SubscriptionRow(email, title, today, Offset(1, Year), true)];
            var priceList := [PriceItem(1, "monthly", title, None, 300, "month")];
            var c := HandleConfirm(table, email, title, priceList, today, Err("network"), Ok);
            |RowsFor(c.table, email)| == 2
  {
    var table := [SubscriptionRow(email, title, today, Offset(1, Year), true)];
    var priceList := [PriceItem(1, "monthly", title, None, 300, "month")];
    var c := HandleConfirm(table, email, title, priceList, today, Err("network"), Ok);
    assert FinishedAt(priceList, title) == Some(Offset(1, Month));
    var row := SubscriptionRow(email, title, today, Offset(1, Month), false);
    assert c.table == table + [row];
    FilterAppend(table, [row], (s: SubscriptionRow) => s.userEmail == email);
  }

  lemma {:induction false} NatToStringRoundTrip(n: nat)
    ensures ParseNat(NatToString(n)) == n
  {
    var s := NatToString(n);
    if n >= 10 {
      NatToStringRoundTrip(n / 10);
      assert s[..|s| - 1] == NatToString(n / 10);
    }
  }

  /** The price printed in a caption reads back as the price. */
  lemma IntToStringRoundTrip(n: int)
    ensures ParseInt(IntToString(n)) == n
  {
    NatToStringRoundTrip(if n < 0 then -n else n);
    if n >= 0 {
      assert NatToString(n)[0] != '-';
    }
  }

  /** One dropdown entry per price-list item, in the same order: its value is the
      item's title, and its caption splits into the price, the separator and the
      title. */
  lemma DropdownFollowsPriceList(priceList: seq<PriceItem>)
    ensures |DropdownItems(priceList)| == |priceList|
    ensures forall i :: 0 <= i < |priceList| ==>
              var c := DropdownItems(priceList)[i].caption;
              var k := |c| - |LabelSeparator| - |priceList[i].title|;
              && DropdownItems(priceList)[i].value == priceList[i].title
              && 0 < k
              && c[..k] == IntToString(priceList[i].price)
              && ParseInt(c[..k]) == priceList[i].price
              && c[k..k + |LabelSeparator|] == LabelSeparator
              && c[k + |LabelSeparator|..] == priceList[i].title
  {
    forall i | 0 <= i < |priceList|
      ensures var c := DropdownItems(priceList)[i].caption;
              var k := |c| - |LabelSeparator| - |priceList[i].title|;
              && 0 < k
              && c[..k] == IntToString(priceList[i].price)
              && ParseInt(c[..k]) == priceList[i].price
              && c[k..k + |LabelSeparator|] == LabelSeparator
              && c[k + |LabelSeparator|..] == priceList[i].title
    {
      var p := IntToString(priceList[i].price);
      var c := p + LabelSeparator + priceList[i].title;
      assert DropdownItems(priceList)[i].caption == c;
      assert |c| - |LabelSeparator| - |priceList[i].title| == |p|;
      assert c[..|p|] == p;
      IntToStringRoundTrip(priceList[i].price);
    }
  }

  /** Whatever is picked from a dropdown built from a loaded price list has an
      end date. */
  lemma EveryChoiceHasEndDate(priceList: seq<PriceItem>)
    ensures forall i :: 0 <= i < |priceList| ==> FinishedAt(priceList, DropdownItems(priceList)[i].value).Some?
  {
    forall i | 0 <= i < |priceList|
      ensures FinishedAt(priceList, DropdownItems(priceList)[i].value).Some?
    {
      assert DropdownItems(priceList)[i].value == priceList[i].title;
    }
  }

  /** After a failed price-list request the placeholder entries stay in the
      dropdown while the price list is empty: none of them has an end date, so
      confirming one never records a subscription. */
  lemma PlaceholderChoicesFail(table: seq<SubscriptionRow>, email: string, today: int,
                               lookup: Response, insert: Response)
    ensures forall i :: 0 <= i < |PlaceholderItems| ==>
              && FinishedAt([], PlaceholderItems[i].value).None?
              && HandleConfirm(table, email, PlaceholderItems[i].value, [], today, lookup, insert).table == table
              && HandleConfirm(table, email, PlaceholderItems[i].value, [], today, lookup, insert).notice != PartlySubscribed
  {
  }

  /** A section shows exactly the items of its type, and sections of a
      concatenated list are the concatenated sections, so the original order is
      kept. */
  lemma SectionShowsItsType(priceList: seq<PriceItem>, more: seq<PriceItem>, kind: string)
    ensures forall i :: 0 <= i < |Section(priceList, kind)| ==>
              Section(priceList, kind)[i].kind == kind && Section(priceList, kind)[i] in priceList
    ensures forall i :: 0 <= i < |priceList| && priceList[i].kind == kind ==>
              priceList[i] in Section(priceList, kind)
    ensures Section(priceList + more, kind) == Section(priceList, kind) + Section(more, kind)
  {
    FilterAppend(priceList, more, (item: PriceItem) => item.kind == kind);
  }

  /** An item whose type is none of the four section types is shown nowhere. */
  lemma UnlistedTypeIsHidden(priceList: seq<PriceItem>, item: PriceItem)
    requires item.kind !in SectionKinds
    ensures forall k :: k in SectionKinds ==> item !in Section(priceList, k)
  {
  }

  /** A hidden button implies the gate would reject when its own lookup answers:
      hiding needs a row for the e-mail, which is all the gate asks for. */
  lemma HiddenButtonImpliesRejection(table: seq<SubscriptionRow>, email: string, prices: Response, lookup: Response,
                                     selectedType: string, priceList: seq<PriceItem>,
                                     today: int, insert: Response)
    requires !ButtonVisible(table, email, prices, lookup)
    ensures prices.Ok? && lookup.Ok?
    ensures HandleConfirm(table, email, selectedType, priceList, today, Ok, insert).notice == AlreadySubscribed
  {
  }

  /** When either the price list or the status lookup fails, the button shows,
      whatever the table holds. */
  lemma FailedRequestShowsButton(table: seq<SubscriptionRow>, email: string, prices: Response, lookup: Response)
    requires prices.Err? || lookup.Err?
    ensures ButtonVisible(table, email, prices, lookup)
  {
  }

  /** The converse fails: a row whose status is unset, or two rows for the same
      e-mail, leave the button visible, yet the gate rejects. */
  lemma {:induction false} VisibleButtonCanBeRejected(email: string, selectedType: string,
                                                      priceList: seq<PriceItem>, today: int, insert: Response)
    ensures var table := [SubscriptionRow(email, "monthly", today, Offset(1, Month), false)];
            && ButtonVisible(table, email, Ok, Ok)
            && HandleConfirm(table, email, selectedType, priceList, today, Ok, insert).notice == AlreadySubscribed
    ensures var row := SubscriptionRow(email, "monthly", today, Offset(1, Month), true);
            && ButtonVisible([row, row], email, Ok, Ok)
            && HandleConfirm([row, row], email, selectedType, priceList, today, Ok, insert).notice == AlreadySubscribed
  {
    var row := SubscriptionRow(email, "monthly", today, Offset(1, Month), true);
    assert RowsFor([row, row], email) == [row, row];
  }
}
